=== FILE: README.md ===
# slowcat, modelled in Dafny

slowcat copies a file to standard output from a given byte offset and
throttles the output to roughly a given number of bits per second. This
project models the C program `slowcat.c` in Dafny and proves properties of
the model. It covers four parts:

- **`main`'s argument checks** (`Scanf`, `CommandLine`). The optional `-v`,
  the argument count, the rate, the offset and the offset's range against
  the file size are checked in the same order as the C code. `sscanf` is
  modelled as the number of assignments it makes: `%d` skips white space,
  takes an optional sign and then a run of digits.
- **`write_all`** (`Output`). `Flush` is a functional definition of the
  retry loop. `WriteAll` is the loop itself, proved equal to `Flush` and
  proved to deliver the buffer prefix in order.
- **The copy loop `slowcat()`** (`Copier`). `Step` models one turn: read,
  write the batch, then the throttle check, whose wait for the clock is
  `Wait`. `Run` chains the turns. `Inv` is the loop invariant, and it
  carries a throughput bound.
- **The integer part of the verbose end-of-run summary** (`Report`). This
  is the zero-elapsed guard and then `total * 8 / secs` in C's truncating
  division.

`Slowcat` puts these together into the whole program.

The operating system is an input to the model. Each call's reply is the
next element of a sequence: `read` (`ReadReply`), `write` (`WriteReply`)
and `time` (a sequence of integers), and what `open`, `fstat` and `lseek`
report is a single `FileProbe` value. When a sequence runs out, the model
stops with `Blocked`, because the real program would still be waiting on
that call. The results are therefore about partial runs. The model also
stops with `Undefined` in two kinds of case. The first is a reply that the
system never gives:

- a read of more than the `bufsiz` bytes asked for;
- a `write` that claims more bytes than it was given.

The second is where the C code itself has no defined behaviour:

- a read that the code lets run past the end of the 100 KiB static buffer;
- a batch resent from beyond the end of that buffer.

Integers are mathematical.

## Behaviour as written

The model keeps these behaviours of the code as they are, and proves each one:

- **Any suffix multiplies by 1024.** `sscanf` returns 1 as soon as `%d` has
  assigned, whether or not the literal `k` or `K` that follows it matches.
  So every text after the number reaches `bps *= 1024` (slowcat.c:185-189).
  "64x" is accepted as 65536 bits per second (`StrayLetterExample`), although
  the two format strings `"%dk%c"` and `"%dK%c"` (slowcat.c:185-186) name
  only `k` and `K`.
- **The batch is resent.** `write_all(out_fd, buf, batch_total)` sends the
  whole batch so far from the start of the buffer after every read, not only
  the bytes just read (slowcat.c:98). The output is therefore not the file's
  content once a batch spans more than one read. At 64 bits per second,
  reading 1 2 and then 3 outputs 1 2 3 2 0 (`ResendExample`). It is faithful
  when each batch is a single read (`FirstReadOfBatchIsFaithful`).
- **`bufsiz = bps` can overrun the static buffer.** It replaces the
  buffer-derived size (slowcat.c:77-81). Above 102400 bytes per second, a
  read that `bufsiz` allows can leave the 100 KiB buffer (`BufferOverrun`).
  Up to 51200 bytes per second, every read `bufsiz` allows fits, and so does
  every resent batch (`SmallRatesFit`).
- **The coarse sleep never runs while the clock never goes back.** The loop
  then keeps `batch_start <= now`, so `now < batch_start - 1` never holds and
  the wait only polls every 20 ms (`OnlyPolls`). The branch would pass a
  negative count to `sleep` (`WaitStep`), and it is reached when the clock
  is set back by more than a second during a wait (`BackwardClockSleeps`).
  A batch started at second 5 whose clock then reads 2 polls once and then
  calls `sleep(-4)` (`BackwardClockExample`). `sleep` takes an unsigned
  count, so -4 would mean sleeping for many years.
- **A throttled batch owes exactly one second.** A batch is below the rate
  before a read, and one read is at most the rate, so `batch_total / bps` is
  always 1 when the check fires (`ThrottleStep`).
- **The throttle limits reads, not output.** `batch_total` and `total`
  count the bytes read, but each read resends the whole batch. A run that
  reaches end of input has written at least as many bytes as it read
  (`OutputCoversReads`), and usually more: 5 bytes for 3 read in
  `ResendExample`. The throughput bound (`ThroughputBound`) is therefore a
  bound on what is read and on the summary's `total`, not on the output.

## Model

| member | source | states |
|---|---|---|
| `Scanf.ScanInt` | slowcat.c:181 | `%d` leaves a proper suffix of the argument, and that suffix does not start with a digit: the conversion takes the digits as far as they go (its full form is stated by the four lemmas below) |
| `Scanf.ScanFormUnsigned` | slowcat.c:181-186 | any blanks, then digits with leading zeros allowed, then text not starting with a digit: `%d` converts to the digits' value and leaves that text |
| `Scanf.ScanFormPlus` | slowcat.c:181-186 | the same with a `+` between the blanks and the digits: the value is kept |
| `Scanf.ScanFormMinus` | slowcat.c:181-186 | the same with a `-` between the blanks and the digits: the value is negated |
| `Scanf.ScanNoDigits` | slowcat.c:181-186 | every other text fails `%d`: after the blanks and an optional sign, something other than a digit comes first |
| `Scanf.CountIntChar` | slowcat.c:181 | "%d%c" makes at most two assignments, and at least one exactly when `%d` converts |
| `Scanf.CountIntLitChar` | slowcat.c:185-186 | "%dk%c" / "%dK%c" make at most two assignments, and at least one exactly when `%d` converts |
| `Scanf.ScanRender` | slowcat.c:181 | scanning a number written in decimal gives back that number and leaves whatever followed it (round trip) |
| `CommandLine.ParseRate` | slowcat.c:183-197 | an accepted rate lies in [8, 2^30] bits per second, so its byte rate `bps / 8` is at least 1; the argument is "not a number" exactly when `%d` fails |
| `CommandLine.ParseRateFollowsRule` | slowcat.c:183-197 | the sequence of `sscanf` calls decides exactly as the rule: bare number → bits per second, number plus any text → ×1024, then the range check |
| `CommandLine.BareRate` | slowcat.c:183-197 | a decimal number alone is its own rate when it lies in [8, 2^30], and an insane rate otherwise |
| `CommandLine.SuffixedRate` | slowcat.c:185-197 | a decimal number followed by any non-digit text is taken ×1024, then range-checked |
| `CommandLine.RateExamples` | slowcat.c:183-197 | "64" is 64 bits per second; "3" is refused as below the minimum |
| `CommandLine.NotANumberExample` | slowcat.c:183-187 | "fast" is a usage error |
| `CommandLine.KiloExample` | slowcat.c:185-189 | "64k" is 65536 bits per second |
| `CommandLine.UpperKiloExample` | slowcat.c:186-189 | "64K" is 65536 bits per second |
| `CommandLine.StrayLetterExample` | slowcat.c:185-189 | as written, "64x" is also 65536 bits per second |
| `CommandLine.KiloCapExample` | slowcat.c:189-197 | the range check follows the multiplication: "1048577k" is refused |
| `CommandLine.ParseOffset` | slowcat.c:181 | the offset is accepted exactly when `%d` converts and nothing follows the number, and then it is that number |
| `CommandLine.OffsetRoundTrip` | slowcat.c:181 | a decimal offset is accepted as itself; any trailing text makes it a usage error |
| `CommandLine.Verbose` | slowcat.c:166-171 | the flag is recognised only as the first argument, and it is never a number |
| `CommandLine.Operands` | slowcat.c:166-173 | the operands are the arguments after the flag, or all of them: one fewer exactly when the flag is present, in the same order |
| `CommandLine.Validate` | slowcat.c:181-231 | the copy starts exactly when the offset and the rate parse, the file opened, was statted and was positioned, and the offset is in [0, size]; it then runs with the flag as given, the parsed rate (in [8, 2^30]), the parsed offset and the named file |
| `CommandLine.Startup` | slowcat.c:166-232 | on the raw argument list: a started copy had three operands, is verbose exactly when `-v` came first, and uses the rate, the offset and the file those operands give |
| `CommandLine.UsageBeforeFiles` | slowcat.c:173-197 | a wrong argument count, a malformed offset or an unacceptable rate is a usage error whatever the file is |
| `CommandLine.StartRule` | slowcat.c:166-232 | with a file that opens, stats and seeks, the copy starts if and only if there are three operands, the rate obeys the rate rule, and the offset is a bare number in [0, size]; it then starts with the flag, the rule's rate, that number and the file |
| `CommandLine.ValidateOffset` | slowcat.c:217-231 | once the offset has the right form, with or without `-v`, the range check alone decides between starting (with that flag, rate and offset) and a usage error |
| `CommandLine.OffsetRange` | slowcat.c:217-222 | a decimal offset is accepted exactly when 0 <= offset <= size |
| `CommandLine.VerboseOffsetRange` | slowcat.c:166-232 | with `-v` in front, a decimal offset is accepted exactly when 0 <= offset <= size, and the run is verbose |
| `CommandLine.OffsetBoundaries` | slowcat.c:217-222 | offsets 0 and size are accepted; -1 and size + 1 are usage errors |
| `Output.Flush` | slowcat.c:45-63 | `write_all` never reports more than `count` bytes sent; it finishes exactly when all `count` bytes went out; a fatal error is the last reply it read; it stalls only after using every reply |
| `Output.SentIsAccepted` | slowcat.c:47-63 | unless a reply overclaimed, the bytes sent are the sum of what the consumed replies reported |
| `Output.FlushStep` | slowcat.c:47-62 | a transient error leaves count and position unchanged; a write of n <= count lowers the count by n and moves the buffer n on; a fatal error ends the call |
| `Output.WithoutRetries` | slowcat.c:49-54 | taking the EINTR/EAGAIN replies out leaves no retry and keeps every other reply as often as it occurs |
| `Output.WithoutRetriesAppend` | slowcat.c:49-54 | taking the retries out of two runs of replies keeps the survivors of the first before those of the second, so the order is kept |
| `Output.RetriesAreInvisible` | slowcat.c:49-54 | with the EINTR/EAGAIN replies removed, `write_all` ends the same way and sends the same number of bytes |
| `Output.WriteAll` | slowcat.c:45-63 | the C loop ends as `Flush` says, and the bytes it hands to `write` are the buffer's first `sent` bytes in order; all `count` of them when it finishes |
| `Report.CDiv` | slowcat.c:139 | the quotient leaves a remainder smaller than the divisor that is zero or has the dividend's sign (C truncating division) |
| `Report.CDivUnique` | slowcat.c:139 | no other quotient has that property |
| `Report.Summarize` | slowcat.c:129-139 | with no second elapsed, only the byte count is reported and nothing is divided; otherwise the rate is `total * 8 / secs` truncated toward zero for either sign of `secs`, which for a non-negative total and `secs > 0` is the floor |
| `Report.BackwardSummaryExample` | slowcat.c:129-139 | 1 byte with the summary's reading 3 seconds before the start reports -2 bits per second (truncated), not the floor -3 |
| `Copier.Init` | slowcat.c:67-81 | the loop starts with the invariant holding, nothing copied, one clock reading as start and batch start, and a byte rate of `bps / 8` |
| `Copier.WaitStep` | slowcat.c:111-114 | the coarse branch is taken exactly when `now < batch_start - 1`, and then sleeps a negative number of seconds; otherwise it polls for 20000 µs |
| `Copier.Wait` | slowcat.c:109-117 | the wait ends on the first clock reading that reaches the target; every earlier reading was below it; it gives up only when the readings run out |
| `Copier.OnlyPolls` | slowcat.c:109-117 | with a clock that never goes back and `batch_start <= now`, every action of the wait is the 20 ms poll |
| `Copier.InvBound` | slowcat.c:83-122 | the loop invariant (a byte rate of at least 1, a batch below the rate, `start <= batch_start <= now`, finished batches at most 2·rate − 1 bytes per second) bounds what has been read by the last clock reading: at most (2·rate − 1) bytes per elapsed second plus one unfinished batch |
| `Copier.Take` | slowcat.c:83-96 | a read lands at the start of the buffer, the rest of the buffer is untouched, and the read is added to the batch and to the total |
| `Copier.Resent` | slowcat.c:98 | `write_all(out_fd, buf, batch_total)` sends `batch_total` bytes: the read just made, followed by the buffer's earlier bytes up to the batch size |
| `Copier.Throttle` | slowcat.c:103-122 | below the rate nothing changes; once the batch reaches the rate, with target = batch start + `batch_total / bps`: the check gives up exactly when the current reading and every remaining reading are below the target; otherwise it resumes at the current reading if that already reaches the target, or else at the first reading that does (every earlier one was below it), starts a new empty batch there and leaves exactly the readings after it |
| `Copier.Step` | slowcat.c:83-122 | end of input and a fatal read stop the loop; a transient read changes nothing; a read that does not fit stops with `Undefined`; a fatal `write_all` stops with a write error, a stalled one with `Blocked` and an overclaimed one with `Undefined`; after a flushed write the turn stops exactly when the batch has reached the rate and no reading reaches batch start + `batch_total / bps`, and a turn that goes on leaves exactly the write replies `write_all` did not consume; a turn that goes on read between 1 and `bufsiz` bytes, added them to the total, and output the whole batch from the start of the buffer |
| `Copier.BufferOverrun` | slowcat.c:70-83 | above 102400 bytes per second, a read of 102401 bytes is allowed by `bufsiz` but leaves the static buffer |
| `Copier.SmallRatesFit` | slowcat.c:70-98 | up to 51200 bytes per second, every read `bufsiz` allows fits, and so does the batch then resent |
| `Copier.BackwardClockSleeps` | slowcat.c:109-117 | a clock reading more than one second behind the batch start makes the next action of the wait `sleep` with a count below -1 |
| `Copier.BackwardClockExample` | slowcat.c:109-117 | a batch started at second 5, owing one second, with the clock then reading 2 and 7: one poll, then `sleep(-4)` |
| `Copier.ThrottleOwed` | slowcat.c:103-122 | on a batch below two seconds' worth, the check owes exactly one second and restarts the batch at least one second later |
| `Copier.ThrottleStep` | slowcat.c:95-122 | in a turn, the owed time is exactly one second; when the check does not fire, batch start, clock and readings are untouched and the batch grew by the read |
| `Copier.StepKeepsInv` | slowcat.c:83-122 | every turn that goes on keeps the loop invariant, including the throughput bound, when the clock never goes back |
| `Copier.Run` | slowcat.c:83-123 | the loop never changes the byte rate or the start time (what it reads into `total` is `RunCountsReads`) |
| `Copier.RunCountsReads` | slowcat.c:83-96 | a run that reaches end of input has added to `total` exactly the bytes the reads delivered (`ReadBytes`: retries add nothing), whatever the writes and the clock did |
| `Copier.RunKeepsInv` | slowcat.c:83-123 | a run that reaches the end of its input ends in a state that satisfies the invariant, with the readings left still never going back |
| `Copier.ThroughputBound` | slowcat.c:67-123 | by any later reading `t`, at most (2·rate − 1) bytes per elapsed second plus one unfinished batch have been read (the `total` the summary reports) |
| `Copier.SummaryBound` | slowcat.c:125-139 | the reported bits per second is at most 8·(2·rate − 1) per second plus one batch, and "one chunk" is reported exactly when no second elapsed |
| `Copier.StepOutCoversReads` | slowcat.c:95-98 | each turn that goes on hands the output at least as many bytes as it read |
| `Copier.OutputCoversReads` | slowcat.c:83-123 | a run that reaches end of input has written at least as many bytes as it read |
| `Copier.ReadRetryIsInvisible` | slowcat.c:83-88 | a read that fails with EINTR/EAGAIN does not change how the run ends |
| `Copier.FirstReadOfBatchIsFaithful` | slowcat.c:95-98 | the first read of a batch reaches the output unchanged |
| `Copier.ResendExample` | slowcat.c:83-98 | at 64 bits per second, reading 1 2 and then 3 (a total of 3) outputs 1 2 3 2 0 |
| `Slowcat.RunCopy` | slowcat.c:67-151 | a fatal read or write error exits 1 with no summary; end of input exits 0 (in verbose mode once the clock has been read), with the loop's output, and prints a summary exactly in verbose mode; that summary gives the run's total, says "one chunk" exactly when the reading is the start second, and otherwise gives the elapsed seconds and `total * 8 / secs` in C division; a loop still waiting on a call or stopped by undefined behaviour has not exited |
| `Slowcat.Program` | slowcat.c:155-235 | a usage error or a failed open/fstat/seek exits 1 and writes nothing |
| `Slowcat.ProgramRunsAtArgumentRate` | slowcat.c:166-232 | a started program runs the copy loop at the rate its first operand gives by the rate rule (any suffix ×1024), verbose exactly when `-v` came first |
| `Slowcat.OutputNeedsValidArguments` | slowcat.c:173-232 | any output, or exit status 0, implies accepted arguments, a rate in [8, 2^30] and an offset inside the file |
| `Slowcat.EmptyRemainder` | slowcat.c:83-137 | when the first read finds end of file, nothing is written; without `-v` the program exits 0 at once; with `-v` it exits 0 once the clock is read, and reports 0 bytes "in one chunk" when that reading is the start second |
| `Slowcat.ReportedBytes` | slowcat.c:95-139 | the byte count in the verbose summary is every byte the reads delivered |
| `Slowcat.ReportedRate` | slowcat.c:125-143 | the verbose summary never reports more than 8·(2·rate − 1) bits per elapsed second plus one batch |

## Left out

- The system calls (`open`, `fstat`, `lseek`, `read`, `write`, `select`,
  `sleep`, `time`, `close`) are not executed. Their results are inputs to
  the model. The wait records its actions (`Sleep`/`Poll`) instead of
  sleeping.
- The relation between the bytes `read` returns and the file's content
  from the offset is left out. The model's input sequence is arbitrary, and
  the results hold for any input.
- Termination is left out. `write_all` loops forever on replies of 0
  bytes or endless EINTR/EAGAIN, and so does the wait on a clock that stops.
  The model runs on finite reply sequences and reports `Stalled` or
  `Blocked`, so the results are partial-correctness results.
- The floating-point over/undershoot percentage (slowcat.c:140-150) is left
  out: it is floating-point arithmetic that only feeds a diagnostic message.
- The text of the `perror`/`fprintf` messages, the per-write "wrote N bytes"
  line on stderr (slowcat.c:100-101) and the program-name trimming
  (slowcat.c:162-164) are left out. The model records only whether a summary
  is printed and what it contains. Arguments are `argv` without the program
  name.
- `CommandLine.ParseRate`: does not model the `int` overflow of a very long
  digit string in `sscanf` (slowcat.c:182-186), or of `bps *= 1024` before
  the range check (slowcat.c:189). Integers are mathematical, so a rate that
  would wrap into the range in C is refused here.
- `CommandLine.ParseOffset`: does not model the `int` overflow of an offset
  too long for an `int` in `sscanf` (slowcat.c:180), which is undefined in
  C; here it keeps its mathematical value and the range check decides.
- `Report.Summarize`: does not model the `int` overflow of `total * 8`
  (slowcat.c:139) on runs longer than 256 MiB.
- `Scanf.CountIntChar`: the `EOF` return of `sscanf` on an empty or
  all-blank argument is folded into 0. The code only compares the result
  with 1.
- `Copier.Step`: a read reply larger than `bufsiz` and a `write` reply
  larger than its request are not followed: the system never gives them.
  A read that would leave the static buffer is not followed either: the C
  code has no defined behaviour there. In all these cases the model stops
  with `Undefined`.

=== FILE: commandline.dfy ===
/** The argument checks of slowcat's `main`: the optional `-v`, the argument
    count, the rate, the offset, and the offset's range against the size of
    the file.  The arguments are `argv` without the program name; what
    `open`, `fstat` and `lseek` report about the named file is one
    `FileProbe` value. */
module CommandLine {
  import opened Scanf

  /** The accepted rates, in bits per second. */
  const MinRate := 8
  const MaxRate := 1024 * 1024 * 1024

  datatype RateResult =
    | Rate(bps: int)          // accepted, in bits per second
    | NotANumber              // no integer at the start: usage error
    | InsaneRate(bps: int)    // an integer outside [MinRate, MaxRate]: usage error

  /** The rate argument as `main` reads it: "%d%c" must stop after the number;
      failing that, "%dk%c" or "%dK%c" must assign exactly once, and then the
      number counts in units of 1024.  A literal that does not match also
      stops those scans after one assignment, so every text after the number
      reaches the multiplication, not only "k" and "K". */
  function ParseRate(arg: string): (r: RateResult)
    ensures r.Rate? ==> MinRate <= r.bps <= MaxRate && r.bps / 8 >= 1
    ensures r.NotANumber? <==> ScanInt(arg).NoMatch?
  {
    if CountIntChar(arg) != 1 && CountIntLitChar(arg, 'k') != 1 && CountIntLitChar(arg, 'K') != 1 then
      NotANumber
    else
      var v := ScanInt(arg).value;
      var bps := if CountIntChar(arg) == 1 then v else v * 1024;
      if bps < MinRate || bps > MaxRate then InsaneRate(bps) else Rate(bps)
  }

  /** The rate rules stated on the number and what follows it. */
  function RateRule(arg: string): RateResult {
    match ScanInt(arg)
    case NoMatch => NotANumber
    case Converted(v, rest) =>
      var bps := if rest == [] then v else v * 1024;
      if MinRate <= bps <= MaxRate then Rate(bps) else InsaneRate(bps)
  }

  /** The sequence of `sscanf` calls decides the same as the rules: a bare
      number is bits per second, a number followed by any text is
      multiplied by 1024, and only [MinRate, MaxRate] is accepted. */
  lemma ParseRateFollowsRule(arg: string)
    ensures ParseRate(arg) == RateRule(arg)
  {
    match ScanInt(arg)
    case NoMatch =>
    case Converted(v, rest) =>
      if rest != [] {
        assert CountIntChar(arg) == 2;
        if rest[0] == 'k' && |rest| > 1 {
          assert CountIntLitChar(arg, 'K') == 1;
        } else {
          assert CountIntLitChar(arg, 'k') == 1;
        }
      }
  }

  /** A number with nothing after it is taken as bits per second. */
  lemma BareRate(v: int)
    ensures ParseRate(Render(v)) == if MinRate <= v <= MaxRate then Rate(v) else InsaneRate(v)
  {
    ScanRender(v, "");
    assert Render(v) + "" == Render(v);
    ParseRateFollowsRule(Render(v));
  }

  /** A number followed by any text that does not start with a digit is
      taken in units of 1024 bits per second. */
  lemma SuffixedRate(v: int, rest: string)
    requires rest != [] && !IsDigit(rest[0])
    ensures ParseRate(Render(v) + rest)
         == if MinRate <= v * 1024 <= MaxRate then Rate(v * 1024) else InsaneRate(v * 1024)
  {
    ScanRender(v, rest);
    ParseRateFollowsRule(Render(v) + rest);
  }

  /** Worked cases of the rate rules: a bare number is bits per second, and
      one below 8 is refused. */
  lemma RateExamples()
    ensures ParseRate("64") == Rate(64)
    ensures ParseRate("3") == InsaneRate(3)
  {
    RenderExamples();
    BareRate(64);
    BareRate(3);
  }

  /** Text that does not start with a number is a usage error. */
  lemma NotANumberExample()
    ensures ParseRate("fast") == NotANumber
  {
    assert SkipSpace("fast") == "fast";
    assert DigitRun("fast") == 0;
  }

  /** A "k" suffix multiplies by 1024. */
  lemma KiloExample()
    ensures ParseRate("64k") == Rate(65536)
  {
    RenderExamples();
    assert "64k" == Render(64) + "k";
    SuffixedRate(64, "k");
  }

  /** So does "K". */
  lemma UpperKiloExample()
    ensures ParseRate("64K") == Rate(65536)
  {
    RenderExamples();
    assert "64K" == Render(64) + "K";
    SuffixedRate(64, "K");
  }

  /** As written any other letter does too, although only "k" and "K" are
      meant. */
  lemma StrayLetterExample()
    ensures ParseRate("64x") == Rate(65536)
  {
    RenderExamples();
    assert "64x" == Render(64) + "x";
    SuffixedRate(64, "x");
  }

  /** The range check applies after the multiplication: 1048577 kbit/s is
      just above 2^30 bits per second. */
  lemma KiloCapExample()
    ensures ParseRate("1048577k") == InsaneRate(1073742848)
  {
    RenderExamples();
    assert "1048577k" == Render(1048577) + "k";
    SuffixedRate(1048577, "k");
  }

  datatype OffsetResult = Offset(off: int) | BadOffset

  /** The offset argument: "%d%c" must assign exactly once, so the number
      may not be followed by anything.  The range is checked later, against
      the size of the file. */
  function ParseOffset(arg: string): (r: OffsetResult)
    ensures r.Offset? <==> ScanInt(arg).Converted? && ScanInt(arg).rest == []
    ensures r.Offset? ==> r.off == ScanInt(arg).value
  {
    if CountIntChar(arg) == 1 then Offset(ScanInt(arg).value) else BadOffset
  }

  /** A number written by `printf("%d")` is accepted as an offset, and the
      same number with anything after it is not. */
  lemma OffsetRoundTrip(off: int, rest: string)
    requires rest == [] || !IsDigit(rest[0])
    ensures ParseOffset(Render(off) + rest) == if rest == [] then Offset(off) else BadOffset
  {
    ScanRender(off, rest);
  }

  /** What `open`, `fstat` and `lseek` report about the named file. */
  datatype FileProbe =
    | OpenFails
    | StatFails
    | Probed(size: nat, seekLands: bool)

  datatype SetupStep = Open | Fstat | Seek

  /** The settings `main` hands to the copy loop. */
  datatype Config = Config(verbose: bool, bps: int, offset: int, file: string)

  datatype Launch =
    | Usage                     // usage message, exit status 1
    | SetupError(step: SetupStep) // perror on the file, exit status 1
    | Start(cfg: Config)

  /** `main` up to the call of the copy loop. */
  function Startup(args: seq<string>, probe: FileProbe): (r: Launch)
    ensures r.Start? ==> MinRate <= r.cfg.bps <= MaxRate
    ensures r.Start? ==> probe.Probed? && probe.seekLands && 0 <= r.cfg.offset <= probe.size
    ensures r.Start? ==>
      && |Operands(args)| == 3
      && ParseRate(Operands(args)[0]).Rate? && ParseOffset(Operands(args)[1]).Offset?
      && r.cfg == Config(Verbose(args), ParseRate(Operands(args)[0]).bps,
                         ParseOffset(Operands(args)[1]).off, Operands(args)[2])
  {
    var operands := Operands(args);
    if |operands| != 3 then Usage
    else Validate(Verbose(args), operands[0], operands[1], operands[2], probe)
  }

  /** `-v` is recognised only as the first argument; it is not a number, so
      an argument taken for the flag could never have been a rate. */
  predicate Verbose(args: seq<string>)
    ensures Verbose(args) ==> |args| > 0 && ScanInt(args[0]) == NoMatch
  {
    |args| > 0 && args[0] == "-v"
  }

  /** The arguments `main` checks, once the optional "-v" is removed: the
      arguments after the flag, or all of them, in their order. */
  function Operands(args: seq<string>): (r: seq<string>)
    ensures |r| == |args| - (if Verbose(args) then 1 else 0)
    ensures r == args[|args| - |r|..]
  {
    if Verbose(args) then args[1..] else args
  }

  /** The checks on the three operands, in the order `main` makes them: the
      offset's form, the rate, then the file, then the offset's range. */
  function Validate(verbose: bool, rate: string, offset: string, file: string, probe: FileProbe): (r: Launch)
    ensures r.Start? ==> MinRate <= r.cfg.bps <= MaxRate
    ensures r.Start? ==> probe.Probed? && probe.seekLands && 0 <= r.cfg.offset <= probe.size
    ensures r.Start? <==>
      && ParseOffset(offset).Offset? && ParseRate(rate).Rate?
      && probe.Probed? && probe.seekLands && 0 <= ParseOffset(offset).off <= probe.size
    ensures r.Start? ==> r.cfg == Config(verbose, ParseRate(rate).bps, ParseOffset(offset).off, file)
  {
    var o := ParseOffset(offset);
    var r := ParseRate(rate);
    if o.BadOffset? || !r.Rate? then Usage
    else
      match probe
      case OpenFails => SetupError(Open)
      case StatFails => SetupError(Fstat)
      case Probed(size, lands) =>
        if o.off < 0 || o.off > size then Usage
        else if !lands then SetupError(Seek)
        else Start(Config(verbose, r.bps, o.off, file))
  }

  /** A malformed argument list is a usage error whatever the file is:
      nothing is opened before the rate and the offset have been read. */
  lemma UsageBeforeFiles(args: seq<string>, probe: FileProbe)
    requires |Operands(args)| != 3
      || ParseOffset(Operands(args)[1]).BadOffset?
      || !ParseRate(Operands(args)[0]).Rate?
    ensures Startup(args, probe) == Usage
  {
  }

  /** With a file that opens, stats and seeks, the copy starts exactly when
      there are three operands, the rate obeys the rate rules and the offset
      is a bare number between 0 and the file size; it then runs verbose
      exactly when "-v" came first, at that rate, from that offset, on that
      file. */
  lemma StartRule(args: seq<string>, size: nat)
    ensures Startup(args, Probed(size, true)).Start?
      <==> (&& |Operands(args)| == 3
            && RateRule(Operands(args)[0]).Rate?
            && ScanInt(Operands(args)[1]).Converted?
            && ScanInt(Operands(args)[1]).rest == []
            && 0 <= ScanInt(Operands(args)[1]).value <= size)
    ensures Startup(args, Probed(size, true)).Start? ==>
      Startup(args, Probed(size, true)).cfg
        == Config(Verbose(args), RateRule(Operands(args)[0]).bps,
                  ScanInt(Operands(args)[1]).value, Operands(args)[2])
  {
    if |Operands(args)| == 3 {
      ParseRateFollowsRule(Operands(args)[0]);
    }
  }

  /** "-v" is not a rate, so a well-formed rate is never taken for the flag. */
  lemma FlagIsNotANumber()
    ensures ScanInt("-v") == NoMatch
  {
    assert SkipSpace("-v") == "-v";
    assert "-v"[1..] == "v";
    assert DigitRun("v") == 0;
  }

  /** With a well-formed rate and a file that opens, stats and seeks, the
      range check alone decides about an offset of the right form. */
  lemma ValidateOffset(verbose: bool, rate: string, offset: string, off: int, size: nat, file: string)
    requires ParseRate(rate).Rate? && ParseOffset(offset) == Offset(off)
    ensures Validate(verbose, rate, offset, file, Probed(size, true))
         == if 0 <= off <= size then Start(Config(verbose, ParseRate(rate).bps, off, file)) else Usage
  {
  }

  /** With a well-formed rate and a file that opens, stats and seeks, an
      offset written as a number is accepted exactly when it lies in
      [0, size]; otherwise it is a usage error. */
  lemma OffsetRange(rate: string, off: int, size: nat, file: string)
    requires ParseRate(rate).Rate?
    ensures Startup([rate, Render(off), file], Probed(size, true))
         == if 0 <= off <= size then Start(Config(false, ParseRate(rate).bps, off, file)) else Usage
  {
    var offset := Render(off);
    RenderedOffset(off);
    assert rate != "-v" by {
      FlagIsNotANumber();
    }
    var args := [rate, offset, file];
    assert !Verbose(args);
    assert Operands(args) == args;
    ValidateOffset(false, rate, offset, off, size, file);
  }

  /** The same with "-v" in front, and then the run is verbose. */
  lemma VerboseOffsetRange(rate: string, off: int, size: nat, file: string)
    requires ParseRate(rate).Rate?
    ensures Startup(["-v", rate, Render(off), file], Probed(size, true))
         == if 0 <= off <= size then Start(Config(true, ParseRate(rate).bps, off, file)) else Usage
  {
    var offset := Render(off);
    RenderedOffset(off);
    var args := ["-v", rate, offset, file];
    assert Verbose(args);
    assert Operands(args) == [rate, offset, file];
    ValidateOffset(true, rate, offset, off, size, file);
  }

  lemma RenderedOffset(off: int)
    ensures ParseOffset(Render(off)) == Offset(off)
  {
    OffsetRoundTrip(off, "");
    assert Render(off) + "" == Render(off);
  }

  /** Both ends of [0, size] are accepted offsets; one step outside is a
      usage error. */
  lemma OffsetBoundaries(rate: string, size: nat, file: string)
    requires ParseRate(rate).Rate?
    ensures Startup([rate, Render(0), file], Probed(size, true)).Start?
    ensures Startup([rate, Render(size), file], Probed(size, true)).Start?
    ensures Startup([rate, Render(-1), file], Probed(size, true)) == Usage
    ensures Startup([rate, Render(size + 1), file], Probed(size, true)) == Usage
  {
    OffsetRange(rate, 0, size, file);
    OffsetRange(rate, size, size, file);
    OffsetRange(rate, -1, size, file);
    OffsetRange(rate, size + 1, size, file);
  }
}

=== FILE: copier.dfy ===
/** slowcat's copy loop (`slowcat()` in slowcat.c): read at most one
    second's worth of bytes, write the batch out, and once the batch has
    reached the rate, wait for the wall clock to catch up before starting a
    new batch.  What `read`, `write` and `time` return is input to the
    model: one reply per call, in order, in three separate sequences.  When
    a sequence runs out the model stops with `Blocked`: the real loop would
    still be waiting on that call. */
module Copier {
  import opened Output
  import opened Report
  import CommandLine

  /** `static char buf[100 * 1024]`, zero-filled before the first read. */
  const BufCap := 100 * 1024

  /** The fine poll of the wait loop: `my_usleep(20000L)`. */
  const PollMicros := 20000

  /** What one `read(in_fd, buf, bufsiz)` call returns. */
  datatype ReadReply =
    | Got(data: seq<byte>)  // that many bytes; none at all is the end of the input
    | ReadRetry             // -1 with errno EINTR or EAGAIN
    | ReadFault             // -1 with any other errno: perror and exit(1)

  /** The variables of the loop.  `rate` is the target in bytes per second
      (`bps` after `bps /= 8`); the code also uses it as `bufsiz`, the most
      one read asks for.  `out` is everything handed to the output so far. */
  datatype LoopState = LoopState(
    rate: int,
    start: int,
    total: int,
    batchTotal: int,
    batchStart: int,
    now: int,
    buf: seq<byte>,
    out: seq<byte>)

  /** What holds at the top of every turn of the loop: the batch is short of
      one second's worth, the batch began no earlier than the run and no
      later than the last clock reading, and every finished batch, which is
      at most 2*rate - 1 bytes, has had a second of its own.  So by the last
      clock reading at most 2*rate - 1 bytes per elapsed second, plus one
      unfinished batch, have been read. */
  predicate Inv(c: LoopState) {
    && c.rate >= 1
    && |c.buf| == BufCap
    && 0 <= c.batchTotal < c.rate
    && c.start <= c.batchStart <= c.now
    && c.batchTotal <= c.total <= (2 * c.rate - 1) * (c.batchStart - c.start) + c.batchTotal
  }

  /** The throughput bound the invariant carries, up to the last clock
      reading. */
  lemma InvBound(c: LoopState)
    requires Inv(c)
    ensures c.total <= (2 * c.rate - 1) * (c.now - c.start) + c.rate - 1
  {
    MulMonotone(2 * c.rate - 1, c.batchStart - c.start, c.now - c.start);
  }

  /** The state on entry: one clock reading `t0` starts the run and the
      first batch. */
  function Init(bitsPerSecond: int, t0: int): (c: LoopState)
    requires bitsPerSecond >= CommandLine.MinRate
    ensures Inv(c)
    ensures c.rate >= 1 && c.rate * 8 <= bitsPerSecond < (c.rate + 1) * 8
    ensures c.total == 0 && c.out == [] && c.start == c.batchStart == c.now == t0
  {
    LoopState(bitsPerSecond / 8, t0, 0, 0, t0, t0, seq(BufCap, _ => 0 as byte), [])
  }

  /** Clock readings that never go back: none earlier than `now`, each no
      earlier than the one before. */
  predicate Ticking(now: int, clock: seq<int>) {
    && (forall i :: 0 <= i < |clock| ==> now <= clock[i])
    && (forall i, j :: 0 <= i < j < |clock| ==> clock[i] <= clock[j])
  }

  // ---------------------------------------------------------------------
  // The wait for the clock

  datatype WaitAction =
    | Sleep(secs: int)     // sleep(now - batch_start - 1)
    | Poll(micros: int)    // my_usleep(20000L)

  /** One turn of the wait loop picks a coarse sleep when the clock is more
      than a second behind the batch start, a fine poll otherwise.  The
      coarse branch computes a negative number of seconds, which `sleep`
      would take as a huge unsigned count. */
  function WaitStep(now: int, batchStart: int): (a: WaitAction)
    ensures a.Sleep? <==> now < batchStart - 1
    ensures a.Sleep? ==> a.secs < -1
    ensures a.Poll? ==> a.micros == PollMicros
  {
    if now < batchStart - 1 then Sleep(now - batchStart - 1) else Poll(PollMicros)
  }

  /** How a wait ended: whether the clock reached the target, the last
      reading, how many readings it took and what was done before each. */
  datatype Waited = Waited(done: bool, now: int, used: nat, actions: seq<WaitAction>)

  /** `while (now < target) { sleep or poll; now = time(); }` */
  function Wait(target: int, batchStart: int, now: int, clock: seq<int>): (w: Waited)
    ensures w.used <= |clock| && |w.actions| == w.used
    ensures w.done ==> w.now >= target
    ensures !w.done ==> w.used == |clock| && w.now < target
    ensures w.now == if w.used == 0 then now else clock[w.used - 1]
    ensures w.used > 0 ==> now < target
    ensures forall k :: 0 <= k < w.used - 1 ==> clock[k] < target
    decreases |clock|
  {
    if now >= target then Waited(true, now, 0, [])
    else if clock == [] then Waited(false, now, 0, [])
    else
      var w := Wait(target, batchStart, clock[0], clock[1..]);
      Waited(w.done, w.now, w.used + 1, [WaitStep(now, batchStart)] + w.actions)
  }

  /** With a clock that never goes back and a batch that began no later
      than the current reading, the wait only ever polls: the coarse-sleep
      branch is dead code. */
  lemma {:induction false} OnlyPolls(target: int, batchStart: int, now: int, clock: seq<int>)
    requires batchStart <= now
    requires Ticking(now, clock)
    ensures forall k :: 0 <= k < |Wait(target, batchStart, now, clock).actions|
              ==> Wait(target, batchStart, now, clock).actions[k] == Poll(PollMicros)
    decreases |clock|
  {
    if now < target && clock != [] {
      assert Ticking(clock[0], clock[1..]);
      OnlyPolls(target, batchStart, clock[0], clock[1..]);
      assert WaitStep(now, batchStart) == Poll(PollMicros);
    }
  }

  /** The coarse branch is reachable only when the clock goes back: a wait
      whose next reading falls more than a second behind the batch start
      calls `sleep` with a negative count next. */
  lemma BackwardClockSleeps(target: int, batchStart: int, now: int, clock: seq<int>)
    requires now < target && |clock| >= 2
    requires clock[0] < target && clock[0] < batchStart - 1
    ensures var w := Wait(target, batchStart, now, clock);
      && w.used >= 2
      && w.actions[1] == Sleep(clock[0] - batchStart - 1)
      && w.actions[1].secs < -1
  {
    var w' := Wait(target, batchStart, clock[0], clock[1..]);
    assert w'.actions[0] == WaitStep(clock[0], batchStart);
  }

  /** A batch started at second 5 and owing one second: the clock reads 2,
      then 7.  The wait polls, reads 2, then sleeps for -4 seconds. */
  lemma BackwardClockExample()
    ensures Wait(6, 5, 5, [2, 7]).actions == [Poll(PollMicros), Sleep(-4)]
  {
    BackwardClockSleeps(6, 5, 5, [2, 7]);
  }

  /** The clock readings left after a wait still never go back from the
      reading the wait ended on. */
  lemma AfterWait(target: int, batchStart: int, now: int, clock: seq<int>)
    requires Ticking(now, clock)
    ensures Wait(target, batchStart, now, clock).now >= now
    ensures Ticking(Wait(target, batchStart, now, clock).now, clock[Wait(target, batchStart, now, clock).used..])
  {
    var w := Wait(target, batchStart, now, clock);
    var rest := clock[w.used..];
    forall i | 0 <= i < |rest|
      ensures w.now <= rest[i]
    {
      assert rest[i] == clock[w.used + i];
      if w.used > 0 {
        assert clock[w.used - 1] <= clock[w.used + i];
      }
    }
    forall i, j | 0 <= i < j < |rest|
      ensures rest[i] <= rest[j]
    {
      assert rest[i] == clock[w.used + i] && rest[j] == clock[w.used + j];
    }
  }

  // ---------------------------------------------------------------------
  // One turn of the loop

  /** Why the loop stopped.  `Undefined` stands for two kinds of case the
      model does not follow: replies the system never gives (a read of more
      than the `bufsiz` bytes asked for, a write reply beyond the request),
      and the cases where the C code has no defined behaviour (a read of
      more than the 100 KiB static buffer, a write of a batch larger than
      that buffer: `bufsiz = bps` and the batch grow with the rate, not with
      the buffer). */
  datatype Halt = EndOfInput | ReadError | WriteError | Blocked | Undefined

  datatype Turn =
    | Next(c: LoopState, writes: seq<WriteReply>, clock: seq<int>)
    | Stop(why: Halt, c: LoopState)

  /** A read the C code can take without undefined behaviour: no more than
      `bufsiz` bytes, no more than the static buffer holds, and a batch the
      following `write_all` can send from inside that buffer. */
  predicate Fits(c: LoopState, data: seq<byte>) {
    && |data| <= c.rate
    && |data| <= BufCap
    && 0 <= c.batchTotal
    && c.batchTotal + |data| <= BufCap
  }

  /** The read of `data` lands at the start of the buffer and is counted in
      the batch and in the run's total. */
  function Take(c: LoopState, data: seq<byte>): (c': LoopState)
    requires |c.buf| == BufCap && Fits(c, data)
    ensures |c'.buf| == BufCap && c'.buf[..|data|] == data && c'.buf[|data|..] == c.buf[|data|..]
    ensures c' == c.(total := c.total + |data|, batchTotal := c.batchTotal + |data|, buf := c'.buf)
  {
    var buf := data + c.buf[|data|..];
    assert buf[..|data|] == data && buf[|data|..] == c.buf[|data|..];
    c.(total := c.total + |data|, batchTotal := c.batchTotal + |data|, buf := buf)
  }

  /** The bytes `write_all(out_fd, buf, batch_total)` is asked for after a
      read of `data`: the read sits at the start of the buffer, and the
      whole batch so far is sent from there, not only the new bytes. */
  function Resent(c: LoopState, data: seq<byte>): (s: seq<byte>)
    requires |c.buf| == BufCap && Fits(c, data)
    ensures |s| == c.batchTotal + |data|
    ensures s[..|data|] == data
    ensures s[|data|..] == c.buf[|data|..c.batchTotal + |data|]
  {
    (data + c.buf[|data|..])[..c.batchTotal + |data|]
  }

  datatype Checked =
    | Resumed(c: LoopState, clock: seq<int>)   // back to reading
    | Waiting(c: LoopState)                    // the clock readings ran out during the wait

  /** The throttle check after a write.  Below the rate nothing changes.
      At or above it, the owed seconds are `batchTotal / rate`; the wait
      ends at the first clock reading that reaches the batch start plus the
      owed seconds, and a new, empty batch starts at that reading. */
  function Throttle(c: LoopState, clock: seq<int>): (k: Checked)
    requires c.rate >= 1
    ensures c.batchTotal < c.rate ==> k == Resumed(c, clock)
    ensures c.batchTotal >= c.rate && k.Resumed? ==>
      && k.c == c.(batchTotal := 0, batchStart := k.c.now, now := k.c.now)
      && k.c.now >= c.batchStart + c.batchTotal / c.rate
    ensures k.Waiting? ==> c.batchTotal >= c.rate && k.c == c.(now := k.c.now)
    ensures c.batchTotal >= c.rate ==>
      var target := c.batchStart + c.batchTotal / c.rate;
      && (k.Waiting? <==> c.now < target && forall i :: 0 <= i < |clock| ==> clock[i] < target)
      && (k.Resumed? ==>
            exists j :: 0 <= j <= |clock| && k.clock == clock[j..]
              && k.c.now == (if j == 0 then c.now else clock[j - 1])
              && (j > 0 ==> c.now < target)
              && forall i :: 0 <= i < j - 1 ==> clock[i] < target)
  {
    if c.batchTotal < c.rate then Resumed(c, clock)
    else
      var target := c.batchStart + c.batchTotal / c.rate;
      var w := Wait(target, c.batchStart, c.now, clock);
      assert !w.done ==> forall i :: 0 <= i < |clock| ==> clock[i] < target by {
        if !w.done && w.used > 0 {
          assert clock[w.used - 1] == w.now;
        }
      }
      if w.done then Resumed(c.(batchStart := w.now, batchTotal := 0, now := w.now), clock[w.used..])
      else Waiting(c.(now := w.now))
  }

  /** One turn: a read, then the write of the batch, then the throttle
      check. */
  function Step(c: LoopState, r: ReadReply, writes: seq<WriteReply>, clock: seq<int>): (t: Turn)
    requires c.rate >= 1 && |c.buf| == BufCap
    ensures r == Got([]) ==> t == Stop(EndOfInput, c)
    ensures r == ReadRetry ==> t == Next(c, writes, clock)
    ensures r == ReadFault ==> t == Stop(ReadError, c)
    ensures t.Next? ==> t.c.rate == c.rate && t.c.start == c.start && |t.c.buf| == BufCap
    ensures t.Next? && r.Got? ==> 0 < |r.data| && Fits(c, r.data)
    ensures r.Got? && 0 < |r.data| && !Fits(c, r.data) ==> t == Stop(Undefined, c)
    ensures r.Got? && 0 < |r.data| && Fits(c, r.data) ==>
      var d := Flush(c.batchTotal + |r.data|, writes);
      && (d.status == Failed ==> t.Stop? && t.why == WriteError)
      && (d.status == Stalled ==> t.Stop? && t.why == Blocked)
      && (d.status == Overclaimed ==> t.Stop? && t.why == Undefined)
      && (d.status == Flushed ==>
            var target := c.batchStart + (c.batchTotal + |r.data|) / c.rate;
            && (t.Stop? <==> c.batchTotal + |r.data| >= c.rate && c.now < target
                              && forall i :: 0 <= i < |clock| ==> clock[i] < target)
            && (t.Next? ==> t.writes == writes[d.used..]))
    ensures t.Next? && r.Got? && Fits(c, r.data) ==>
      && t.c.total == c.total + |r.data|
      && t.c.buf[..|r.data|] == r.data
      && t.c.out == c.out + Resent(c, r.data)
  {
    match r
    case ReadRetry => Next(c, writes, clock)
    case ReadFault => Stop(ReadError, c)
    case Got(data) =>
      if |data| == 0 then Stop(EndOfInput, c)
      else if !Fits(c, data) then Stop(Undefined, c)
      else
        var c1 := Take(c, data);
        var d := Flush(c1.batchTotal, writes);
        var c2 := c1.(out := c.out + c1.buf[..d.sent]);
        match d.status
        case Failed => Stop(WriteError, c2)
        case Stalled => Stop(Blocked, c2)
        case Overclaimed => Stop(Undefined, c2)
        case Flushed =>
          match Throttle(c2, clock)
          case Resumed(c3, clock') => Next(c3, writes[d.used..], clock')
          case Waiting(c3) => Stop(Blocked, c3)
  }

  /** `bufsiz = bps` lets a read ask for more than the static buffer holds:
      above 102400 bytes per second a read of 102401 bytes, which `bufsiz`
      allows, already leaves the buffer. */
  lemma BufferOverrun(c: LoopState, writes: seq<WriteReply>, clock: seq<int>, data: seq<byte>)
    requires Inv(c) && c.rate > BufCap
    requires |data| == BufCap + 1
    ensures |data| <= c.rate
    ensures Step(c, Got(data), writes, clock) == Stop(Undefined, c)
  {
  }

  /** Up to 51200 bytes per second (409600 bits per second) every read
      `bufsiz` allows fits, and so does the batch that is then resent. */
  lemma SmallRatesFit(c: LoopState, data: seq<byte>)
    requires Inv(c) && 2 * c.rate <= BufCap
    requires |data| <= c.rate
    ensures Fits(c, data)
  {
  }

  /** A turn that read `data` and goes on did so by writing the batch and
      passing the throttle check on the state the write left. */
  lemma StepThrough(c: LoopState, data: seq<byte>, writes: seq<WriteReply>, clock: seq<int>)
    requires c.rate >= 1 && |c.buf| == BufCap
    requires Step(c, Got(data), writes, clock).Next?
    ensures 0 < |data| && Fits(c, data)
    ensures var t := Step(c, Got(data), writes, clock);
      Throttle(Take(c, data).(out := t.c.out), clock) == Resumed(t.c, t.clock)
  {
  }

  /** The throttle check on a batch of fewer than two seconds' worth: once
      it fires, exactly one second is owed and a new, empty batch starts at
      a reading at least one second after the old batch start. */
  lemma ThrottleOwed(c: LoopState, clock: seq<int>)
    requires c.rate >= 1 && 0 <= c.batchTotal < 2 * c.rate
    requires Throttle(c, clock).Resumed?
    ensures var k := Throttle(c, clock);
      if c.batchTotal >= c.rate then
        && c.batchTotal / c.rate == 1
        && k.c == c.(batchTotal := 0, batchStart := k.c.now, now := k.c.now)
        && k.c.now >= c.batchStart + 1
      else
        k == Resumed(c, clock)
  {
    if c.batchTotal >= c.rate {
      assert c.batchTotal / c.rate == 1;
    }
  }

  /** After the throttle check the clock readings left still never go back
      from the current one. */
  lemma ThrottleKeepsTicking(c: LoopState, clock: seq<int>)
    requires c.rate >= 1 && Ticking(c.now, clock)
    ensures var k := Throttle(c, clock);
      k.Resumed? ==> k.c.now >= c.now && Ticking(k.c.now, k.clock)
  {
    if c.batchTotal >= c.rate {
      AfterWait(c.batchStart + c.batchTotal / c.rate, c.batchStart, c.now, clock);
    }
  }

  /** The throttle check of one turn that read `data`.  When the batch
      reaches the rate, the owed time is exactly one second (the batch was
      short of the rate before the read, and one read is at most the rate),
      the clock has reached the batch start plus that second, and a new,
      empty batch starts at that reading.  When it does not, neither the
      batch start nor the clock is touched and the batch has grown by the
      read. */
  lemma ThrottleStep(c: LoopState, data: seq<byte>, writes: seq<WriteReply>, clock: seq<int>)
    requires Inv(c)
    requires Step(c, Got(data), writes, clock).Next?
    ensures var t := Step(c, Got(data), writes, clock);
      if c.batchTotal + |data| >= c.rate then
        && (c.batchTotal + |data|) / c.rate == 1
        && t.c.batchTotal == 0
        && t.c.batchStart == t.c.now >= c.batchStart + 1
      else
        && t.c.batchTotal == c.batchTotal + |data|
        && t.c.batchStart == c.batchStart
        && t.c.now == c.now
        && t.clock == clock
  {
    var t := Step(c, Got(data), writes, clock);
    StepThrough(c, data, writes, clock);
    ThrottleOwed(Take(c, data).(out := t.c.out), clock);
  }

  /** Every turn that goes on keeps the loop invariant, provided the clock
      never goes back. */
  lemma StepKeepsInv(c: LoopState, r: ReadReply, writes: seq<WriteReply>, clock: seq<int>)
    requires Inv(c) && Ticking(c.now, clock)
    ensures var t := Step(c, r, writes, clock);
      t.Next? ==> Inv(t.c) && Ticking(t.c.now, t.clock)
  {
    var t := Step(c, r, writes, clock);
    if t.Next? && r.Got? {
      StepThrough(c, r.data, writes, clock);
      TakeThenThrottle(c, r.data, t.c.out, clock);
    }
  }

  /** A read that fits, followed by a throttle check that resumes, keeps
      the loop invariant and the clock that never goes back. */
  lemma TakeThenThrottle(c: LoopState, data: seq<byte>, out: seq<byte>, clock: seq<int>)
    requires Inv(c) && Ticking(c.now, clock)
    requires 0 < |data| && Fits(c, data)
    ensures var k := Throttle(Take(c, data).(out := out), clock);
      k.Resumed? ==> Inv(k.c) && Ticking(k.c.now, k.clock)
  {
    var c2 := Take(c, data).(out := out);
    if Throttle(c2, clock).Resumed? {
      ThrottleOwed(c2, clock);
      ThrottleKeepsTicking(c2, clock);
      if c.batchTotal + |data| >= c.rate {
        BatchBound(c.rate, c.batchStart - c.start, Throttle(c2, clock).c.batchStart - c.start, c.batchTotal, |data|, c.total);
      }
    }
  }

  /** The arithmetic of the throughput bound across a finished batch: a
      batch of at most 2*rate - 1 bytes followed by at least one second. */
  lemma BatchBound(rate: int, k: int, k': int, batch: int, n: int, total: int)
    requires rate >= 1 && 0 <= k && k + 1 <= k'
    requires 0 <= batch < rate && n <= rate
    requires total <= (2 * rate - 1) * k + batch
    ensures total + n <= (2 * rate - 1) * k'
  {
    MulMonotone(2 * rate - 1, k + 1, k');
    assert (2 * rate - 1) * (k + 1) == (2 * rate - 1) * k + (2 * rate - 1);
  }

  lemma MulMonotone(a: int, x: int, y: int)
    requires a >= 0 && x <= y
    ensures a * x <= a * y
  {
  }

  // ---------------------------------------------------------------------
  // The whole loop

  /** How the loop ended: why, in what state, and the clock readings not
      yet taken. */
  datatype Ending = Ending(why: Halt, c: LoopState, clock: seq<int>)

  /** `while ((n = read(...)) != 0) { ... }`: turns until a read ends or
      fails the loop, or the replies run out. */
  function Run(c: LoopState, input: seq<ReadReply>, writes: seq<WriteReply>, clock: seq<int>): (e: Ending)
    requires c.rate >= 1 && |c.buf| == BufCap
    ensures e.c.rate == c.rate && e.c.start == c.start
    decreases |input|
  {
    if input == [] then Ending(Blocked, c, clock)
    else
      match Step(c, input[0], writes, clock)
      case Next(c', writes', clock') => Run(c', input[1..], writes', clock')
      case Stop(why, c') => Ending(why, c', clock)
  }

  /** The bytes the reads deliver before the first end of input: a retried
      read adds nothing, and a fatal one ends the count. */
  function ReadBytes(input: seq<ReadReply>): nat {
    if input == [] then 0
    else
      match input[0]
      case Got(data) => if data == [] then 0 else |data| + ReadBytes(input[1..])
      case ReadRetry => ReadBytes(input[1..])
      case ReadFault => 0
  }

  /** Every read is counted: a run that reaches the end of its input has
      added to `total` exactly the bytes the reads delivered, whatever the
      writes and the clock did. */
  lemma {:induction false} RunCountsReads(c: LoopState, input: seq<ReadReply>, writes: seq<WriteReply>, clock: seq<int>)
    requires c.rate >= 1 && |c.buf| == BufCap
    ensures var e := Run(c, input, writes, clock);
      e.why == EndOfInput ==> e.c.total == c.total + ReadBytes(input)
    decreases |input|
  {
    if input != [] {
      var t := Step(c, input[0], writes, clock);
      if t.Next? {
        RunCountsReads(t.c, input[1..], t.writes, t.clock);
      }
    }
  }

  /** A run that reaches the end of the input ends in a state that keeps
      the loop invariant, with the clock readings it did not use still
      never going back. */
  lemma {:induction false} RunKeepsInv(c: LoopState, input: seq<ReadReply>, writes: seq<WriteReply>, clock: seq<int>)
    requires Inv(c) && Ticking(c.now, clock)
    ensures var e := Run(c, input, writes, clock);
      e.why == EndOfInput ==> Inv(e.c) && Ticking(e.c.now, e.clock)
    decreases |input|
  {
    if input != [] {
      var t := Step(c, input[0], writes, clock);
      StepKeepsInv(c, input[0], writes, clock);
      if t.Next? {
        RunKeepsInv(t.c, input[1..], t.writes, t.clock);
      }
    }
  }

  /** The long-run bound the batching gives: from the start of the run to
      any later clock reading `t`, at most 2*rate - 1 bytes per elapsed
      second plus one unfinished batch have been read.  This bounds `total`,
      which the summary reports, not the output (see `OutputCoversReads`). */
  lemma ThroughputBound(bitsPerSecond: int, t0: int, input: seq<ReadReply>, writes: seq<WriteReply>, clock: seq<int>, t: int)
    requires bitsPerSecond >= CommandLine.MinRate
    requires Ticking(t0, clock)
    requires Run(Init(bitsPerSecond, t0), input, writes, clock).why == EndOfInput
    requires t >= Run(Init(bitsPerSecond, t0), input, writes, clock).c.now
    ensures var e := Run(Init(bitsPerSecond, t0), input, writes, clock);
      e.c.total <= (2 * e.c.rate - 1) * (t - t0) + e.c.rate - 1
  {
    var c := Init(bitsPerSecond, t0);
    RunKeepsInv(c, input, writes, clock);
    var e := Run(c, input, writes, clock);
    MulMonotone(2 * e.c.rate - 1, e.c.batchStart - t0, t - t0);
  }

  /** The verbose summary of a run that reached the end of its input, taken
      at a later clock reading: with a whole second or more elapsed, the
      reported bits per second is at most 8 * (2*rate - 1) per elapsed
      second plus one unfinished batch. */
  lemma SummaryBound(bitsPerSecond: int, t0: int, input: seq<ReadReply>, writes: seq<WriteReply>, clock: seq<int>, t: int)
    requires bitsPerSecond >= CommandLine.MinRate
    requires Ticking(t0, clock)
    requires Run(Init(bitsPerSecond, t0), input, writes, clock).why == EndOfInput
    requires t >= Run(Init(bitsPerSecond, t0), input, writes, clock).c.now
    ensures var e := Run(Init(bitsPerSecond, t0), input, writes, clock);
      var s := Summarize(e.c.total, t0, t);
      && (s.OneChunk? <==> t == t0)
      && (s.Measured? ==> s.secs > 0 && s.rate * s.secs <= 8 * ((2 * e.c.rate - 1) * s.secs + e.c.rate - 1))
  {
    var c := Init(bitsPerSecond, t0);
    RunKeepsInv(c, input, writes, clock);
    ThroughputBound(bitsPerSecond, t0, input, writes, clock, t);
  }

  /** Every turn that goes on hands the output at least as many bytes as it
      read: the resent batch contains the read. */
  lemma StepOutCoversReads(c: LoopState, r: ReadReply, writes: seq<WriteReply>, clock: seq<int>)
    requires c.rate >= 1 && |c.buf| == BufCap && 0 <= c.batchTotal
    ensures var t := Step(c, r, writes, clock);
      t.Next? ==> 0 <= t.c.batchTotal && |t.c.out| - t.c.total >= |c.out| - c.total
  {
    var t := Step(c, r, writes, clock);
    if t.Next? && r.Got? {
      StepThrough(c, r.data, writes, clock);
    }
  }

  lemma {:induction false} RunOutCoversReads(c: LoopState, input: seq<ReadReply>, writes: seq<WriteReply>, clock: seq<int>)
    requires c.rate >= 1 && |c.buf| == BufCap && 0 <= c.batchTotal
    ensures var e := Run(c, input, writes, clock);
      e.why == EndOfInput ==> |e.c.out| - e.c.total >= |c.out| - c.total
    decreases |input|
  {
    if input != [] {
      var t := Step(c, input[0], writes, clock);
      StepOutCoversReads(c, input[0], writes, clock);
      if t.Next? {
        RunOutCoversReads(t.c, input[1..], t.writes, t.clock);
      }
    }
  }

  /** The throttle limits what is read, not what is written: a run that
      reaches the end of its input has handed the output at least every
      byte it read, and with the resend usually more, so the output is not
      bounded by `ThroughputBound`. */
  lemma OutputCoversReads(bitsPerSecond: int, t0: int, input: seq<ReadReply>, writes: seq<WriteReply>, clock: seq<int>)
    requires bitsPerSecond >= CommandLine.MinRate
    ensures var e := Run(Init(bitsPerSecond, t0), input, writes, clock);
      e.why == EndOfInput ==> |e.c.out| >= e.c.total
  {
    RunOutCoversReads(Init(bitsPerSecond, t0), input, writes, clock);
  }

  /** A retried read changes nothing: the run ends the same way with or
      without it. */
  lemma ReadRetryIsInvisible(c: LoopState, input: seq<ReadReply>, writes: seq<WriteReply>, clock: seq<int>)
    requires c.rate >= 1 && |c.buf| == BufCap
    ensures Run(c, [ReadRetry] + input, writes, clock) == Run(c, input, writes, clock)
  {
    assert ([ReadRetry] + input)[1..] == input;
  }

  /** The first read of a batch reaches the output unchanged: with an empty
      batch the resent bytes are exactly the bytes just read. */
  lemma FirstReadOfBatchIsFaithful(c: LoopState, data: seq<byte>, writes: seq<WriteReply>, clock: seq<int>)
    requires Inv(c) && c.batchTotal == 0
    requires Step(c, Got(data), writes, clock).Next?
    ensures Step(c, Got(data), writes, clock).c.out == c.out + data
  {
    assert Resent(c, data) == data;
  }

  /** The batch is resent from the start of the buffer: at 64 bits per
      second (8 bytes per second), reading 1 2 and then 3 hands 1 2 3 2 0 to
      the output, not 1 2 3: five bytes written for three read. */
  lemma ResendExample()
    ensures var e := Run(Init(64, 0), [Got([1, 2]), Got([3]), Got([])], [Wrote(2), Wrote(3)], []);
      e.why == EndOfInput && e.c.total == 3 && e.c.out == [1, 2, 3, 2, 0]
  {
    var t1 := Step(Init(64, 0), Got([1, 2]), [Wrote(2), Wrote(3)], []);
    ResendFirstTurn();
    var t2 := Step(t1.c, Got([3]), [Wrote(3)], []);
    ResendSecondTurn(t1.c);
    var input := [Got([1, 2]), Got([3]), Got([])];
    assert input[1..] == [Got([3]), Got([])] && input[1..][1..] == [Got([])];
  }

  /** The first turn of `ResendExample`: two bytes read and written. */
  lemma ResendFirstTurn()
    ensures var t := Step(Init(64, 0), Got([1, 2]), [Wrote(2), Wrote(3)], []);
      && t.Next? && t.writes == [Wrote(3)] && t.clock == []
      && t.c.rate == 8 && |t.c.buf| == BufCap && t.c.batchTotal == 2 && t.c.total == 2
      && t.c.out == [1, 2] && t.c.buf[1] == 2 && t.c.buf[2] == 0
  {
    var c0 := Init(64, 0);
    assert c0.rate == 8 && c0.buf[2] == 0;
    var t1 := Step(c0, Got([1, 2]), [Wrote(2), Wrote(3)], []);
    assert Flush(2, [Wrote(2), Wrote(3)]) == Drain(Flushed, 2, 1);
    assert t1.Next? && t1.c.batchTotal == 2;
    assert t1.c.out == Resent(c0, [1, 2]) == [1, 2];
    assert [Wrote(2), Wrote(3)][1..] == [Wrote(3)];
  }

  /** The second turn of `ResendExample`: one byte read, three written. */
  lemma ResendSecondTurn(c: LoopState)
    requires c.rate == 8 && |c.buf| == BufCap && c.batchTotal == 2 && c.total == 2
    requires c.out == [1, 2] && c.buf[1] == 2 && c.buf[2] == 0
    ensures var t := Step(c, Got([3]), [Wrote(3)], []);
      t.Next? && t.c.total == 3 && t.c.out == [1, 2, 3, 2, 0]
  {
    var t := Step(c, Got([3]), [Wrote(3)], []);
    assert Flush(3, [Wrote(3)]) == Drain(Flushed, 3, 1);
    assert t.Next?;
    assert Resent(c, [3]) == [3, c.buf[1], c.buf[2]];
  }
}

=== FILE: output.dfy ===
/** slowcat's `write_all`: keep calling `write` until `count` bytes from the
    start of the buffer have been accepted.  What each `write` call reports
    is an input of the model, one reply per call, in order. */
module Output {

  newtype byte = x: int | 0 <= x < 256

  /** What one `write(fd, buf, count)` call reports. */
  datatype WriteReply =
    | Wrote(n: nat)   // n bytes accepted
    | Retry           // -1 with errno EINTR or EAGAIN
    | WriteFault      // -1 with any other errno: perror and exit(1)

  datatype FlushStatus =
    | Flushed         // all `count` bytes accepted
    | Failed          // a fatal write error
    | Stalled         // the replies ran out with bytes still owed: the real loop keeps waiting
    | Overclaimed     // a reply claimed more bytes than were asked for; the C code
                      // would then wrap the unsigned `count` and read past the buffer

  /** How a `write_all` call ended, how many bytes the descriptor accepted
      (always the first `sent` bytes of the buffer) and how many replies it
      consumed. */
  datatype Drain = Drain(status: FlushStatus, sent: nat, used: nat)

  /** The sum of the byte counts of the successful replies. */
  function Accepted(replies: seq<WriteReply>): nat {
    if replies == [] then 0
    else Accepted(replies[..|replies| - 1]) + (match replies[|replies| - 1] case Wrote(n) => n case _ => 0)
  }

  /** The replies with the retried errors taken out: every other reply is
      kept, as often as it occurs (and in order, by `WithoutRetriesAppend`). */
  function WithoutRetries(replies: seq<WriteReply>): (r: seq<WriteReply>)
    ensures |r| <= |replies|
    ensures forall i :: 0 <= i < |r| ==> r[i] != Retry
    ensures forall x :: x != Retry ==> multiset(r)[x] == multiset(replies)[x]
  {
    if replies == [] then []
    else
      assert replies == [replies[0]] + replies[1..];
      if replies[0] == Retry then WithoutRetries(replies[1..])
      else [replies[0]] + WithoutRetries(replies[1..])
  }

  /** Taking the retries out of two runs of replies one after the other
      keeps the survivors of the first before those of the second. */
  lemma {:induction false} WithoutRetriesAppend(a: seq<WriteReply>, b: seq<WriteReply>)
    ensures WithoutRetries(a + b) == WithoutRetries(a) + WithoutRetries(b)
    decreases |a|
  {
    if a == [] {
      assert a + b == b;
    } else {
      assert (a + b)[0] == a[0];
      assert (a + b)[1..] == a[1..] + b;
      WithoutRetriesAppend(a[1..], b);
    }
  }

  /** `write_all` on a request of `count` bytes: a retried error changes
      nothing, a write of n bytes lowers the count by n and moves the buffer
      position n bytes on, and the loop ends when nothing is owed. */
  function Flush(count: nat, replies: seq<WriteReply>): (d: Drain)
    ensures d.sent <= count && d.used <= |replies|
    ensures d.status == Flushed <==> d.sent == count
    ensures d.status == Failed ==> d.used > 0 && replies[d.used - 1] == WriteFault
    ensures d.status == Overclaimed ==> d.used > 0 && replies[d.used - 1].Wrote?
    ensures d.status == Stalled ==> d.used == |replies|
    decreases |replies|
  {
    if count == 0 then Drain(Flushed, 0, 0)
    else if replies == [] then Drain(Stalled, 0, 0)
    else
      var rest := replies[1..];
      match replies[0]
      case Retry =>
        var d := Flush(count, rest);
        Drain(d.status, d.sent, d.used + 1)
      case WriteFault => Drain(Failed, 0, 1)
      case Wrote(n) =>
        if n > count then Drain(Overclaimed, 0, 1)
        else
          var d := Flush(count - n, rest);
          Drain(d.status, d.sent + n, d.used + 1)
  }

  /** Unless a reply overclaimed, the bytes `write_all` got rid of are
      exactly the sum of what the replies it consumed reported. */
  lemma {:induction false} SentIsAccepted(count: nat, replies: seq<WriteReply>)
    ensures var d := Flush(count, replies);
      d.status != Overclaimed ==> d.sent == Accepted(replies[..d.used])
    decreases |replies|
  {
    var d := Flush(count, replies);
    if count == 0 || replies == [] {
      assert replies[..0] == [];
    } else if replies[0] == Retry {
      SentIsAccepted(count, replies[1..]);
      AcceptedCons(replies, d.used - 1);
    } else if replies[0].Wrote? && replies[0].n <= count {
      SentIsAccepted(count - replies[0].n, replies[1..]);
      AcceptedCons(replies, d.used - 1);
    } else if replies[0] == WriteFault {
      AcceptedCons(replies, 0);
      assert replies[1..][..0] == [];
      assert Accepted([]) == 0;
    }
  }

  /** Accepted, split after the first reply. */
  lemma {:induction false} AcceptedCons(replies: seq<WriteReply>, k: nat)
    requires replies != [] && k < |replies|
    ensures Accepted(replies[..k + 1])
         == (match replies[0] case Wrote(n) => n case _ => 0) + Accepted(replies[1..][..k])
    decreases k
  {
    if k > 0 {
      AcceptedCons(replies, k - 1);
      assert replies[..k + 1][..k] == replies[..k];
      assert replies[1..][..k][..k - 1] == replies[1..][..k - 1];
    } else {
      assert replies[..1][..0] == [];
    }
  }

  /** Retried errors are invisible: with them taken out, `write_all` ends
      the same way and delivers the same bytes. */
  lemma {:induction false} RetriesAreInvisible(count: nat, replies: seq<WriteReply>)
    ensures Flush(count, WithoutRetries(replies)).status == Flush(count, replies).status
    ensures Flush(count, WithoutRetries(replies)).sent == Flush(count, replies).sent
    decreases |replies|
  {
    if count > 0 && replies != [] {
      var rest := replies[1..];
      var kept := WithoutRetries(replies);
      FlushStep(count, replies);
      if replies[0] == Retry {
        assert kept == WithoutRetries(rest);
        RetriesAreInvisible(count, rest);
      } else {
        assert kept == [replies[0]] + WithoutRetries(rest);
        assert kept[1..] == WithoutRetries(rest);
        FlushStep(count, kept);
        if replies[0].Wrote? && replies[0].n <= count {
          RetriesAreInvisible(count - replies[0].n, rest);
        }
      }
    }
  }

  /** The loop of `write_all` as the C code runs it.  The bytes it hands to
      the descriptor, call after call, add up to the first `d.sent` bytes of
      the buffer in order; on `Flushed` that is the whole request. */
  method WriteAll(buf: seq<byte>, count: nat, replies: seq<WriteReply>) returns (d: Drain, delivered: seq<byte>)
    requires count <= |buf|
    ensures d == Flush(count, replies)
    ensures delivered == buf[..d.sent]
    ensures d.status == Flushed ==> delivered == buf[..count]
  {
    var left: nat := count;
    var pos: nat := 0;
    var i: nat := 0;
    delivered := [];
    ghost var outcome := Flush(count, replies);
    assert replies[0..] == replies;
    while left > 0
      invariant pos + left == count
      invariant i <= |replies|
      invariant delivered == buf[..pos]
      invariant outcome == Shift(Flush(left, replies[i..]), pos, i)
      decreases |replies| - i
    {
      FlushAt(left, replies, i, pos);
      if i == |replies| {
        d := Drain(Stalled, pos, i);
        return;
      }
      var step := replies[i];
      if step == WriteFault {
        // errno other than EINTR/EAGAIN
        d := Drain(Failed, pos, i + 1);
        return;
      }
      if step.Wrote? && step.n > left {
        // a reply beyond the request
        d := Drain(Overclaimed, pos, i + 1);
        return;
      }
      var n := if step.Wrote? then step.n else 0;
      assert buf[..pos] + buf[pos..pos + n] == buf[..pos + n];
      delivered := delivered + buf[pos..pos + n];
      left := left - n;
      pos := pos + n;
      i := i + 1;
    }
    FlushAt(left, replies, i, pos);
    d := Drain(Flushed, pos, i);
  }

  /** One turn of the `write_all` loop. */
  lemma FlushStep(count: nat, replies: seq<WriteReply>)
    requires count > 0 && replies != []
    ensures replies[0] == Retry ==> Flush(count, replies) == Shift(Flush(count, replies[1..]), 0, 1)
    ensures replies[0] == WriteFault ==> Flush(count, replies) == Drain(Failed, 0, 1)
    ensures replies[0].Wrote? && replies[0].n > count ==> Flush(count, replies) == Drain(Overclaimed, 0, 1)
    ensures replies[0].Wrote? && replies[0].n <= count
        ==> Flush(count, replies) == Shift(Flush(count - replies[0].n, replies[1..]), replies[0].n, 1)
  {
  }

  /** The `write_all` loop with `count` bytes still owed, `pos` bytes and
      `i` replies on: how the next turn ends the call or moves it on. */
  lemma FlushAt(count: nat, replies: seq<WriteReply>, i: nat, pos: nat)
    requires i <= |replies|
    ensures count == 0 ==> Shift(Flush(count, replies[i..]), pos, i) == Drain(Flushed, pos, i)
    ensures count > 0 && i == |replies| ==> Shift(Flush(count, replies[i..]), pos, i) == Drain(Stalled, pos, i)
    ensures count > 0 && i < |replies| && replies[i] == WriteFault
        ==> Shift(Flush(count, replies[i..]), pos, i) == Drain(Failed, pos, i + 1)
    ensures count > 0 && i < |replies| && replies[i].Wrote? && replies[i].n > count
        ==> Shift(Flush(count, replies[i..]), pos, i) == Drain(Overclaimed, pos, i + 1)
    ensures count > 0 && i < |replies| && replies[i] == Retry
        ==> Shift(Flush(count, replies[i..]), pos, i) == Shift(Flush(count, replies[i + 1..]), pos, i + 1)
    ensures count > 0 && i < |replies| && replies[i].Wrote? && replies[i].n <= count
        ==> Shift(Flush(count, replies[i..]), pos, i)
            == Shift(Flush(count - replies[i].n, replies[i + 1..]), pos + replies[i].n, i + 1)
  {
    if count > 0 && i < |replies| {
      FlushStep(count, replies[i..]);
      assert replies[i..][1..] == replies[i + 1..];
    }
  }

  /** A `write_all` outcome seen from `pos` bytes and `i` replies further on. */
  function Shift(d: Drain, pos: nat, i: nat): Drain {
    Drain(d.status, d.sent + pos, d.used + i)
  }
}

=== FILE: report.dfy ===
/** The integer part of slowcat's verbose end-of-run summary.  The
    over/undershoot percentage, computed in floating point, is not part of
    this model. */
module Report {

  function Abs(x: int): nat {
    if x < 0 then -x else x
  }

  /** C's `/` on `int`: the quotient truncated toward zero, so the remainder
      takes the sign of the dividend (Dafny's own `/` rounds so that the
      remainder is never negative). */
  function CDiv(a: int, b: int): (q: int)
    requires b != 0
    ensures Abs(a - q * b) < Abs(b)
    ensures a - q * b == 0 || (a - q * b < 0 <==> a < 0)
  {
    var q := Abs(a) / Abs(b);
    TruncatedRemainder(a, b, q, Abs(a) % Abs(b));
    if (a < 0) == (b < 0) then q else -q
  }

  /** The remainder of dividing the magnitudes, given back its sign. */
  lemma TruncatedRemainder(a: int, b: int, q: int, r: int)
    requires b != 0 && Abs(a) == q * Abs(b) + r && 0 <= r < Abs(b)
    ensures (a < 0) == (b < 0) ==> a - q * b == (if a < 0 then -r else r)
    ensures (a < 0) != (b < 0) ==> a - (-q) * b == (if a < 0 then -r else r)
  {
    if a < 0 && b < 0 {
      assert a == -(q * -b) - r;
    } else if a < 0 {
      assert a == -(q * b) - r;
    } else if b < 0 {
      assert a == q * -b + r;
    }
  }

  /** Truncating division is fixed by those two facts: no other quotient
      leaves a remainder that is smaller than the divisor and has the sign
      of the dividend. */
  lemma CDivUnique(a: int, b: int, q: int)
    requires b != 0
    requires Abs(a - q * b) < Abs(b)
    requires a - q * b == 0 || (a - q * b < 0 <==> a < 0)
    ensures q == CDiv(a, b)
  {
    var p := CDiv(a, b);
    var rp := a - p * b;
    var rq := a - q * b;
    SameSignClose(rq, rp, Abs(b));
    RemainderGap(a, b, p, q);
    if p != q {
      AbsProduct(p - q, b);
    }
  }

  lemma RemainderGap(a: int, b: int, p: int, q: int)
    ensures (a - q * b) - (a - p * b) == (p - q) * b
  {
    assert p * b - q * b == (p - q) * b;
  }

  /** Two remainders below `m` in magnitude and of the same sign differ by
      less than `m`. */
  lemma SameSignClose(x: int, y: int, m: int)
    requires Abs(x) < m && Abs(y) < m
    requires x == 0 || y == 0 || (x < 0 <==> y < 0)
    ensures Abs(x - y) < m
  {
  }

  lemma AbsProduct(d: int, b: int)
    requires d != 0
    ensures Abs(d * b) >= Abs(b)
  {
    if d > 0 {
      if b >= 0 {
        assert d * b >= b;
      } else {
        assert d * b <= b;
      }
    } else {
      if b >= 0 {
        assert d * b <= -b;
      } else {
        assert d * b >= -b;
      }
    }
  }

  datatype Summary =
    | OneChunk(bytes: int)                        // "wrote N bytes in one chunk."
    | Measured(rate: int, bytes: int, secs: int)  // "actual bits per second: R (N bytes in Ss)"

  /** The summary after the copy: with no whole second elapsed only the byte
      count is reported and nothing is divided; otherwise the rate is
      `total * 8 / secs` in C's integer division, truncated toward zero for
      either sign of `secs`. */
  function Summarize(total: int, start: int, now: int): (s: Summary)
    ensures s.OneChunk? <==> now == start
    ensures s.bytes == total
    ensures s.Measured? ==> s.secs == now - start
    ensures s.Measured? ==>
      var rem := total * 8 - s.rate * s.secs;
      Abs(rem) < Abs(s.secs) && (rem == 0 || (rem < 0 <==> total * 8 < 0))
    ensures s.Measured? && s.secs > 0 && total >= 0
        ==> s.rate * s.secs <= total * 8 < (s.rate + 1) * s.secs
  {
    var secs := now - start;
    if secs == 0 then OneChunk(total)
    else Measured(CDiv(total * 8, secs), total, secs)
  }

  /** A summary read from a clock set back three seconds truncates toward
      zero: 8 bits over -3 seconds is reported as -2, not the floor -3. */
  lemma BackwardSummaryExample()
    ensures Summarize(1, 3, 0) == Measured(-2, 1, -3)
  {
    CDivUnique(8, -3, -2);
  }
}

=== FILE: scanf.dfy ===
/** The part of C's `sscanf` that slowcat's command line relies on: the `%d`
    conversion, and the formats "%d%c" and "%d<letter>%c" read as the number
    of assignments they make.  Integers are mathematical: the overflow of a
    C `int` on a very long digit string is not modelled. */
module Scanf {

  /** The characters `isspace` accepts in the C locale. */
  predicate IsSpace(c: char) {
    c == ' ' || c == '\t' || c == '\n' || c == '\U{B}' || c == '\U{C}' || c == '\r'
  }

  predicate IsDigit(c: char) {
    '0' <= c <= '9'
  }

  predicate AllSpace(s: string) {
    forall i :: 0 <= i < |s| ==> IsSpace(s[i])
  }

  predicate AllDigits(s: string) {
    forall i :: 0 <= i < |s| ==> IsDigit(s[i])
  }

  function DigitValue(c: char): (d: nat)
    requires IsDigit(c)
    ensures d < 10
  {
    c as int - '0' as int
  }

  function DigitChar(d: nat): (c: char)
    requires d < 10
    ensures IsDigit(c) && DigitValue(c) == d
  {
    ('0' as int + d) as char
  }

  /** The white space `%d` skips before the number. */
  function SkipSpace(s: string): (r: string)
    ensures |r| <= |s| && r == s[|s| - |r|..]
    ensures r == [] || !IsSpace(r[0])
  {
    if s != [] && IsSpace(s[0]) then SkipSpace(s[1..]) else s
  }

  /** The length of the run of digits at the start of `s`. */
  function DigitRun(s: string): (n: nat)
    ensures n <= |s|
    ensures AllDigits(s[..n])
    ensures n == |s| || !IsDigit(s[n])
  {
    if s != [] && IsDigit(s[0]) then 1 + DigitRun(s[1..]) else 0
  }

  /** The value of a digit string, most significant digit first. */
  function DigitsValue(ds: string): nat
    requires AllDigits(ds)
  {
    if ds == [] then 0 else 10 * DigitsValue(ds[..|ds| - 1]) + DigitValue(ds[|ds| - 1])
  }

  /** The outcome of one `%d` conversion: no match, or the value and the
      text that follows the digits. */
  datatype Conversion = NoMatch | Converted(value: int, rest: string)

  /** `%d`: optional white space, an optional sign, then one or more digits,
      taken as far as they go. */
  function ScanInt(s: string): (r: Conversion)
    ensures r.Converted? ==> |r.rest| < |s| && r.rest == s[|s| - |r.rest|..]
    ensures r.Converted? ==> r.rest == [] || !IsDigit(r.rest[0])
  {
    var t := SkipSpace(s);
    var r := ScanSigned(t);
    if r.Converted? then SuffixOfSuffix(s, t, r.rest); r else r
  }

  /** `%d` once the white space is behind it. */
  function ScanSigned(t: string): (r: Conversion)
    ensures r.Converted? ==> |r.rest| < |t| && r.rest == t[|t| - |r.rest|..]
    ensures r.Converted? ==> r.rest == [] || !IsDigit(r.rest[0])
  {
    var signed := t != [] && (t[0] == '-' || t[0] == '+');
    var u := if signed then t[1..] else t;
    var k := DigitRun(u);
    if k == 0 then NoMatch
    else
      var m: int := DigitsValue(u[..k]);
      Converted(if signed && t[0] == '-' then -m else m, u[k..])
  }

  lemma SuffixOfSuffix(s: string, t: string, u: string)
    requires |t| <= |s| && t == s[|s| - |t|..]
    requires |u| <= |t| && u == t[|t| - |u|..]
    ensures u == s[|s| - |u|..]
  {
  }

  /** Assignments made by `sscanf(s, "%d%c", &v, &c)`: the `%c` assigns
      whenever any character at all follows the number. */
  function CountIntChar(s: string): (n: nat)
    ensures n <= 2
    ensures n >= 1 <==> ScanInt(s).Converted?
  {
    match ScanInt(s)
    case NoMatch => 0
    case Converted(_, rest) => if rest == [] then 1 else 2
  }

  /** Assignments made by `sscanf(s, "%d<lit>%c", &v, &c)` for a letter
      `lit`: a literal that does not match stops the scan after the first
      assignment, exactly as running out of input does. */
  function CountIntLitChar(s: string, lit: char): (n: nat)
    ensures n <= 2
    ensures n >= 1 <==> ScanInt(s).Converted?
  {
    match ScanInt(s)
    case NoMatch => 0
    case Converted(_, rest) =>
      if rest == [] || rest[0] != lit || |rest| == 1 then 1 else 2
  }

  /** `%d` as `printf` writes it: a minus sign for a negative value, then the
      decimal digits without leading zeros. */
  function Decimal(n: nat): (s: string)
    ensures |s| >= 1 && AllDigits(s)
    ensures DigitsValue(s) == n
  {
    if n < 10 then [DigitChar(n)]
    else
      var s := Decimal(n / 10) + [DigitChar(n % 10)];
      assert s[..|s| - 1] == Decimal(n / 10);
      s
  }

  function Render(v: int): string {
    if v < 0 then "-" + Decimal(-v) else Decimal(v)
  }

  /** Numbers as `printf("%d")` writes them. */
  lemma RenderExamples()
    ensures Render(3) == "3"
    ensures Render(64) == "64"
    ensures Render(1048577) == "1048577"
  {
  }

  lemma {:induction false} DigitRunOfDigits(ds: string, rest: string)
    requires AllDigits(ds)
    requires rest == [] || !IsDigit(rest[0])
    ensures DigitRun(ds + rest) == |ds|
    decreases |ds|
  {
    if ds == [] {
      assert ds + rest == rest;
    } else {
      assert (ds + rest)[1..] == ds[1..] + rest;
      DigitRunOfDigits(ds[1..], rest);
    }
  }

  /** `%d` skips no white space in front of a sign or a digit. */
  lemma NoSpaceToSkip(s: string)
    requires s != [] && (s[0] == '-' || IsDigit(s[0]))
    ensures SkipSpace(s) == s
  {
  }

  /** An unsigned digit string scans as its value when nothing that follows
      it could extend the run of digits. */
  lemma {:induction false} ScanDigits(ds: string, rest: string)
    requires |ds| >= 1 && AllDigits(ds)
    requires rest == [] || !IsDigit(rest[0])
    ensures ScanSigned(ds + rest) == Converted(DigitsValue(ds), rest)
  {
    var u := ds + rest;
    DigitRunOfDigits(ds, rest);
    assert u[..|ds|] == ds;
    assert u[|ds|..] == rest;
  }

  /** The same digit string after a sign scans as the value, negated after
      a minus. */
  lemma {:induction false} ScanSignedDigits(sign: string, ds: string, rest: string)
    requires sign == "+" || sign == "-"
    requires |ds| >= 1 && AllDigits(ds)
    requires rest == [] || !IsDigit(rest[0])
    ensures ScanSigned(sign + ds + rest)
         == Converted(if sign == "-" then 0 - DigitsValue(ds) else DigitsValue(ds), rest)
  {
    var s := sign + ds + rest;
    var u := ds + rest;
    assert s[0] == sign[0] && s[1..] == u;
    DigitRunOfDigits(ds, rest);
    assert u[..|ds|] == ds;
    assert u[|ds|..] == rest;
  }

  /** `%d` skips exactly the blanks in front of the first other character. */
  lemma {:induction false} SkipBlanks(ws: string, t: string)
    requires AllSpace(ws)
    requires t == [] || !IsSpace(t[0])
    ensures SkipSpace(ws + t) == t
    decreases |ws|
  {
    if ws == [] {
      assert ws + t == t;
    } else {
      assert (ws + t)[0] == ws[0];
      assert (ws + t)[1..] == ws[1..] + t;
      SkipBlanks(ws[1..], t);
    }
  }

  /** The form `%d` accepts: blanks, then digits, leading zeros allowed,
      taken up to the first character that is not a digit. */
  lemma ScanFormUnsigned(ws: string, ds: string, rest: string)
    requires AllSpace(ws)
    requires |ds| >= 1 && AllDigits(ds)
    requires rest == [] || !IsDigit(rest[0])
    ensures ScanInt(ws + (ds + rest)) == Converted(DigitsValue(ds), rest)
  {
    ScanAfterBlanks(ws, ds + rest);
    ScanDigits(ds, rest);
  }

  /** The same with a plus sign between the blanks and the digits. */
  lemma ScanFormPlus(ws: string, ds: string, rest: string)
    requires AllSpace(ws)
    requires |ds| >= 1 && AllDigits(ds)
    requires rest == [] || !IsDigit(rest[0])
    ensures ScanInt(ws + (['+'] + ds + rest)) == Converted(DigitsValue(ds), rest)
  {
    ScanAfterBlanks(ws, ['+'] + ds + rest);
    ScanSignedDigits(['+'], ds, rest);
  }

  /** The same with a minus sign, which negates the value. */
  lemma ScanFormMinus(ws: string, ds: string, rest: string)
    requires AllSpace(ws)
    requires |ds| >= 1 && AllDigits(ds)
    requires rest == [] || !IsDigit(rest[0])
    ensures ScanInt(ws + (['-'] + ds + rest)) == Converted(0 - DigitsValue(ds), rest)
  {
    ScanAfterBlanks(ws, ['-'] + ds + rest);
    ScanSignedDigits(['-'], ds, rest);
  }

  lemma ScanAfterBlanks(ws: string, t: string)
    requires AllSpace(ws)
    requires t == [] || !IsSpace(t[0])
    ensures ScanInt(ws + t) == ScanSigned(t)
  {
    SkipBlanks(ws, t);
  }

  /** Everything else fails `%d`: after the blanks and an optional sign,
      something other than a digit comes first. */
  lemma ScanNoDigits(ws: string, sign: string, rest: string)
    requires AllSpace(ws)
    requires sign == "" || sign == "+" || sign == "-"
    requires rest == [] || !IsDigit(rest[0])
    requires sign == "" && rest != [] ==> !IsSpace(rest[0]) && rest[0] != '+' && rest[0] != '-'
    ensures ScanInt(ws + sign + rest) == NoMatch
  {
    var t := sign + rest;
    assert ws + sign + rest == ws + t;
    if sign != "" {
      assert t[0] == sign[0] && t[1..] == rest;
      ScanAfterBlanks(ws, t);
    } else {
      assert t == rest;
      ScanAfterBlanks(ws, t);
    }
  }

  /** Scanning what `printf("%d")` wrote gives back the value, and leaves
      whatever followed the digits. */
  lemma ScanRender(v: int, rest: string)
    requires rest == [] || !IsDigit(rest[0])
    ensures ScanInt(Render(v) + rest) == Converted(v, rest)
  {
    if v < 0 {
      var ds := Decimal(-v);
      ScanSignedDigits("-", ds, rest);
      assert Render(v) + rest == "-" + ds + rest;
      NoSpaceToSkip("-" + ds + rest);
    } else {
      var ds := Decimal(v);
      ScanDigits(ds, rest);
      assert Render(v) + rest == ds + rest;
      NoSpaceToSkip(ds + rest);
    }
  }
}

=== FILE: slowcat.dfy ===
/** slowcat as a whole: `main` checks its arguments, positions the file,
    runs the copy loop and returns 0; every error path exits with status 1.
    The clock reading `t0` is the one `slowcat()` takes on entry; the
    verbose summary takes the next reading of the clock after the loop. */
module Slowcat {
  import opened CommandLine
  import opened Output
  import opened Report
  import opened Copier

  datatype Diagnostics = Silent | Summarized(summary: Summary)

  datatype Result =
    | Exit(status: int, out: seq<byte>, diagnostics: Diagnostics)
    | Unfinished(why: Halt, out: seq<byte>)   // still waiting on a call, or undefined behaviour

  /** `slowcat()` and what `main` does when it returns: the loop, the
      summary in verbose mode once the input has ended, and exit status 0;
      a fatal read or write error exits with status 1. */
  function RunCopy(bitsPerSecond: int, verbose: bool, t0: int, input: seq<ReadReply>,
                   writes: seq<WriteReply>, clock: seq<int>): (r: Result)
    requires bitsPerSecond >= MinRate
    ensures r.Exit? ==> r.status == 0 || r.status == 1
    ensures r.Exit? && r.status == 1 ==> r.diagnostics == Silent
    ensures r.Exit? && r.status == 0 ==> (r.diagnostics.Summarized? <==> verbose)
    ensures var e := Run(Init(bitsPerSecond, t0), input, writes, clock);
      && (e.why == ReadError || e.why == WriteError ==> r == Exit(1, e.c.out, Silent))
      && (e.why == EndOfInput && (!verbose || e.clock != []) ==> r.Exit? && r.status == 0 && r.out == e.c.out)
      && (e.why == Blocked || e.why == Undefined ==> r == Unfinished(e.why, e.c.out))
    ensures var e := Run(Init(bitsPerSecond, t0), input, writes, clock);
      e.why == EndOfInput && verbose && e.clock != [] ==>
        && r.Exit? && r.diagnostics.Summarized?
        && r.diagnostics.summary.bytes == e.c.total
        && (r.diagnostics.summary.OneChunk? <==> e.clock[0] == t0)
        && (r.diagnostics.summary.Measured? ==>
              && r.diagnostics.summary.secs == e.clock[0] - t0
              && r.diagnostics.summary.rate == CDiv(e.c.total * 8, e.clock[0] - t0))
  {
    var e := Run(Init(bitsPerSecond, t0), input, writes, clock);
    match e.why
    case EndOfInput =>
      if !verbose then Exit(0, e.c.out, Silent)
      else if e.clock == [] then Unfinished(Blocked, e.c.out)
      else Exit(0, e.c.out, Summarized(Summarize(e.c.total, e.c.start, e.clock[0])))
    case ReadError => Exit(1, e.c.out, Silent)
    case WriteError => Exit(1, e.c.out, Silent)
    case Blocked => Unfinished(Blocked, e.c.out)
    case Undefined => Unfinished(Undefined, e.c.out)
  }

  /** The whole program on the arguments after the program name. */
  function Program(args: seq<string>, probe: FileProbe, t0: int, input: seq<ReadReply>,
                   writes: seq<WriteReply>, clock: seq<int>): (r: Result)
    ensures Startup(args, probe).Usage? || Startup(args, probe).SetupError? ==> r == Exit(1, [], Silent)
  {
    match Startup(args, probe)
    case Usage => Exit(1, [], Silent)
    case SetupError(_) => Exit(1, [], Silent)
    case Start(cfg) => RunCopy(cfg.bps, cfg.verbose, t0, input, writes, clock)
  }

  /** A started program copies at the rate its first operand names, read
      by the independent rate rule (a suffix multiplies by 1024), and is
      verbose exactly when "-v" came first. */
  lemma ProgramRunsAtArgumentRate(args: seq<string>, size: nat, t0: int, input: seq<ReadReply>,
                                  writes: seq<WriteReply>, clock: seq<int>)
    requires Startup(args, Probed(size, true)).Start?
    ensures |Operands(args)| == 3 && RateRule(Operands(args)[0]).Rate?
    ensures Program(args, Probed(size, true), t0, input, writes, clock)
      == RunCopy(RateRule(Operands(args)[0]).bps, Verbose(args), t0, input, writes, clock)
  {
    StartRule(args, size);
  }

  /** Nothing is written unless the arguments were accepted and the file
      was opened and positioned; a successful run was started with a rate
      in [MinRate, MaxRate] and an offset inside the file. */
  lemma OutputNeedsValidArguments(args: seq<string>, probe: FileProbe, t0: int, input: seq<ReadReply>,
                                  writes: seq<WriteReply>, clock: seq<int>)
    ensures var r := Program(args, probe, t0, input, writes, clock);
      (r.Exit? && r.status == 0) || r.out != [] ==>
        && Startup(args, probe).Start?
        && MinRate <= Startup(args, probe).cfg.bps <= MaxRate
        && probe.Probed? && 0 <= Startup(args, probe).cfg.offset <= probe.size
  {
  }

  /** When the first read already finds the end of the file (the offset was
      the file size), nothing is written.  Without -v the program exits with
      status 0 at once; with -v it exits with status 0 once it has read the
      clock, and reports 0 bytes "in one chunk" when that reading is still
      the start second. */
  lemma EmptyRemainder(args: seq<string>, probe: FileProbe, t0: int, input: seq<ReadReply>,
                       writes: seq<WriteReply>, clock: seq<int>)
    requires Startup(args, probe).Start?
    requires input != [] && input[0] == Got([])
    ensures var r := Program(args, probe, t0, input, writes, clock);
      var verbose := Startup(args, probe).cfg.verbose;
      && r.out == []
      && (!verbose ==> r == Exit(0, [], Silent))
      && (verbose && clock != [] ==> r.Exit? && r.status == 0)
      && (verbose && clock != [] && clock[0] == t0 ==> r.diagnostics == Summarized(OneChunk(0)))
  {
  }

  /** The byte count the verbose summary reports is every byte the reads
      delivered. */
  lemma ReportedBytes(bitsPerSecond: int, t0: int, input: seq<ReadReply>,
                      writes: seq<WriteReply>, clock: seq<int>)
    requires bitsPerSecond >= MinRate
    ensures var r := RunCopy(bitsPerSecond, true, t0, input, writes, clock);
      r.Exit? && r.status == 0 ==> r.diagnostics.summary.bytes == ReadBytes(input)
  {
    RunCountsReads(Init(bitsPerSecond, t0), input, writes, clock);
  }

  /** The verbose summary of a successful run, with the clock never going
      back: zero elapsed seconds reports the byte count alone; otherwise
      the reported bits per second is at most 8 * (2*rate - 1) per elapsed
      second plus one unfinished batch, `rate` being bytes per second. */
  lemma ReportedRate(bitsPerSecond: int, t0: int, input: seq<ReadReply>,
                     writes: seq<WriteReply>, clock: seq<int>)
    requires bitsPerSecond >= MinRate
    requires Ticking(t0, clock)
    ensures var r := RunCopy(bitsPerSecond, true, t0, input, writes, clock);
      var rate := bitsPerSecond / 8;
      r.Exit? && r.status == 0 ==>
        match r.diagnostics.summary
        case OneChunk(_) => true
        case Measured(bits, _, secs) => secs > 0 && bits * secs <= 8 * ((2 * rate - 1) * secs + rate - 1)
  {
    var e := Run(Init(bitsPerSecond, t0), input, writes, clock);
    if e.why == EndOfInput && e.clock != [] {
      RunKeepsInv(Init(bitsPerSecond, t0), input, writes, clock);
      SummaryBound(bitsPerSecond, t0, input, writes, clock, e.clock[0]);
    }
  }
}
